=== FILE: README.md ===
# Launch favourites and countdown — a Dafny model

This project models the two pieces of logic in a space-launch browser app.

- **The favourites store** (`lib/storage.ts`). It is an ordered list of launch records kept on the device under one key and keyed by launch `id`. `getFavorites` reads the list. `addFavorite` appends a launch unless its id is already stored. `removeFavorite` filters out every entry with an id. `isFavorite` tests membership by id.
- **The launch card's status colour and countdown label** (`components/LaunchCard.tsx`). `getStatusColor` maps a status abbreviation to a colour literal. `getCountdown` splits the milliseconds left before a launch into days, hours and minutes and formats a `T-…` label.

Modules:

- `Wrappers` (`wrappers.dfy`): `Option` and `Result`.
- `Api` (`api.dfy`): the `Launch` record, reduced to its `id` plus three of the fields the card displays: name, status abbreviation and scheduled time. The store copies those fields without inspecting them.
- `Decimal` (`decimal.dfy`): the decimal text a template literal gives a non-negative integer, and a parser for it.
- `Storage` (`storage.dfy`): the favourites store.
- `LaunchCard` (`launchcard.dfy`): the status colour, the countdown, and a parser that reads a label back.

## How the store is modelled

The key-value collaborator is one value, a `Blob`, with four cases:

- `Missing`: never written.
- `EmptyText`: an empty string. The source's falsy test treats it like a missing value.
- `Encoded(list)`: the serialisation of a launch list.
- `Garbled`: text the decoder rejects.

Every operation is a pure function from the blob before the call to a `Step`. A `Step` holds what the call returns or throws, and the blob after the call. A write always stores `Encoded(list)`.

The source does not catch a decoding error, so there is no fallback to an empty list: a bad blob throws at `lib/storage.ts:9`. So for `Garbled`, every operation fails with `ParseError` and writes nothing.

`addFavorite`'s early return writes nothing. `removeFavorite` always writes, even when nothing matched. So removing an absent id keeps the stored *contents* but may turn `Missing` into `Encoded([])`.

## How the countdown is modelled

`getCountdown` is modelled as a function of `diff`, the launch time minus the current time in whole milliseconds. `Split` computes the same floor divisions and remainders as the card. `RenderFields` chooses between the card's three formats, and `RenderRemaining` puts `T-` in front.

The source computes with doubles, and the integer model is exact for every realistic difference. `getTime()` values are whole milliseconds. Their difference is exact while it stays below 2^53. The quotient `diff / 86400000` can only round up to the next integer when half an ulp of the quotient exceeds 1/86400000. That cannot happen while the number of days is below 2^26, about 183,000 years. The same bound keeps `diff` below 2^53. The hour and minute quotients are not exact doubles, but their floors are. Their operands are below one day, so a quotient that falls short of an integer does so by at least 1/3600000, or at least 1/60000 for minutes. That is far more than half an ulp of a value below 24, or below 60 for minutes. `%` on doubles is exact.

The partner of the label is `ParseCountdown`. It accepts exactly the texts the card writes and returns the breakdown they show. Texts with 24 or more hours, 60 or more minutes, or a leading zero are rejected, because the card never writes them. `ParseAcceptsExactlyLabels` states this. The round-trip lemmas connect the two in both directions. `SplitUnique` gives an independent characterisation of `Split`: it is the only breakdown whose hours and minutes are in range and that accounts for `diff` to within one minute.

## Model

| member | source | states |
|---|---|---|
| Storage.Decode | lib/storage.ts:7-9 | Decoding fails exactly on an undecodable blob. A missing value or empty text reads as the empty list. |
| Storage.Encode | lib/storage.ts:16 | A written list decodes back to the same list. |
| Storage.GetFavorites | lib/storage.ts:6-10 | Reading never changes the blob. It returns the stored list as stored, and `[]` when nothing or empty text is stored. It throws only on an undecodable blob. |
| Storage.AddFavorite | lib/storage.ts:12-17 | Fails exactly on an undecodable blob, leaving it untouched. Otherwise the blob is either unchanged or the old list with the launch appended. |
| Storage.RemoveFavorite | lib/storage.ts:19-23 | Fails exactly on an undecodable blob and then writes nothing. Otherwise it writes the filtered list `Without(old, id)`, even when nothing matched. |
| Storage.IsFavorite | lib/storage.ts:25-28 | Never changes the blob. Answers true exactly when the stored list has an entry with that id. Fails only on an undecodable blob. |
| Storage.HasId | lib/storage.ts:14 | The front-to-back scan used by `some` answers true exactly when some stored entry carries the id. |
| Storage.Without | lib/storage.ts:21 | The `filter` result is never longer than the stored list, and none of its entries carries the removed id. |
| Storage.IsFavoriteAgreesWithGetFavorites | lib/storage.ts:6-10 | `isFavorite` answers what a membership test on `getFavorites`' list answers, and throws exactly when that read throws. |
| Storage.GetFavoritesAfterRemove | lib/storage.ts:19-22 | After a successful remove, `getFavorites` returns the old list without the removed id's entries. |
| Storage.WithoutMembers | lib/storage.ts:21 | An entry survives the filter exactly when it was stored and its id differs from the removed one. |
| Storage.WithoutHasNoId | lib/storage.ts:21 | After the filter, no entry carries the removed id. |
| Storage.WithoutConcat | lib/storage.ts:21 | The filter distributes over concatenation, so surviving entries keep their relative order. |
| Storage.WithoutAbsent | lib/storage.ts:21 | Filtering out an id that no entry carries returns the list unchanged. |
| Storage.WithoutDistinct | lib/storage.ts:21 | The filter keeps ids pairwise distinct. |
| Storage.AddIdempotent | lib/storage.ts:13-16 | Adding the same launch twice gives the same result and blob as adding it once. This also holds on the error path. |
| Storage.AddPresentIsNoOp | lib/storage.ts:14 | Adding a launch whose id is already stored returns normally and writes nothing. |
| Storage.AddFreshAppends | lib/storage.ts:14-16 | Adding a launch with a fresh id stores the old list, in order, followed by that launch. |
| Storage.AddThenIsFavorite | lib/storage.ts:12-28 | After a successful add, `isFavorite` for the launch's id answers true. |
| Storage.RemoveThenNotFavorite | lib/storage.ts:19-28 | After a successful remove, `isFavorite` for that id answers false, whatever was stored. |
| Storage.RemoveAbsentKeepsContents | lib/storage.ts:19-22 | Removing an id that no entry carries leaves the decoded contents unchanged. |
| Storage.RemoveIdempotent | lib/storage.ts:19-22 | Removing the same id twice gives the same result and blob as removing it once. |
| Storage.RemoveUndoesFreshAdd | lib/storage.ts:12-22 | Removing a launch right after adding it with a fresh id restores the previous contents. |
| Storage.AddKeepsDistinct | lib/storage.ts:14-16 | If the stored ids are pairwise distinct, they still are after an add. |
| Storage.RemoveKeepsDistinct | lib/storage.ts:21-22 | If the stored ids are pairwise distinct, they still are after a remove. |
| LaunchCard.StatusColor | components/LaunchCard.tsx:12-25 | Always a `#RRGGBB` literal. Green exactly for "Go" and "Success", amber exactly for "TBD" and "TBC", slate for every other abbreviation. |
| LaunchCard.Split | components/LaunchCard.tsx:32-34 | For a positive difference, hours are below 24 and minutes below 60. Days, hours and minutes account for the difference to within one minute, rounding down. |
| LaunchCard.SplitUnique | components/LaunchCard.tsx:32-34 | Any in-range breakdown that accounts for the difference to within one minute is the card's own split. |
| LaunchCard.GetCountdown | components/LaunchCard.tsx:27-38 | The label is "Launched" exactly when the difference is not positive. Otherwise it starts with "T-". |
| LaunchCard.RenderFields | components/LaunchCard.tsx:35-37 | The fields of the three label formats always read back as the breakdown they were written for. So dropping zero days, or zero days and hours, loses nothing. |
| LaunchCard.RenderRemaining | components/LaunchCard.tsx:35-37 | Its contract states only that a remaining-time label starts with `T-`. What the label contains is stated by `ParseRenderRemaining` and `ParseSound`. |
| LaunchCard.UnderAMinute | components/LaunchCard.tsx:33-37 | With under a minute left, the label is "T-0m". |
| LaunchCard.ParseRenderRemaining | components/LaunchCard.tsx:35-37 | The label of every in-range breakdown reads back as that breakdown. Zero days, or zero days and hours, are dropped but can be recovered. |
| LaunchCard.ParseSound | components/LaunchCard.tsx:35-37 | Every text the parser accepts has in-range hours and minutes, and is exactly the card's label for the breakdown it reads. So the three formats never collide. |
| LaunchCard.CountdownRoundTrip | components/LaunchCard.tsx:30-37 | For every difference, the label reads back as what it shows: launched, or the card's split of the remaining time. |
| LaunchCard.LabelDeterminesMinute | components/LaunchCard.tsx:32-37 | Take an in-range breakdown. Every positive difference it accounts for to within one minute gets that breakdown's label. With `ParseSound`, a remaining-time label fixes the difference to one minute. |
| LaunchCard.ParseAcceptsExactlyLabels | components/LaunchCard.tsx:30-37 | A text reads back as a countdown if and only if the card writes it for some difference. |
| Decimal.NatStr | components/LaunchCard.tsx:35-37 | A number in a label is written as a canonical numeral: digits only, and no leading zero unless the number is zero. |
| Decimal.ValueOfNatStr | components/LaunchCard.tsx:35-37 | The numeral written for a number denotes that number. |

## Left out

- The remote launch API wrappers (`fetchUpcomingLaunches`, `fetchLaunchById`, `searchLaunches` in `lib/api.ts`) are left out. They are network I/O through `fetch` and JSON decoding. From that file, the model keeps only the fact that a launch has a string `id`.
- The key-value collaborator and JSON serialisation are left out. They are reduced to the `Blob` state cell. Any text the decoder rejects is one case, `Garbled`. Reads and writes of the cell are assumed to succeed: a rejected `getItem` or `setItem` (lines 7, 16, 22) would propagate in the source, and the model has no such error.
- Stored text that is valid JSON but not a launch array is not modelled faithfully. `getFavorites` returns such a value unchanged (`lib/storage.ts:9`). If it is `null` or not an array, `addFavorite`, `removeFavorite` and `isFavorite` throw when they call `some` or `filter` on it (lines 14, 21, 27). An array of non-null non-records such as `[1]` does not throw: `isFavorite` answers false and `addFavorite` appends. An entry that is `null` throws when the scan reaches it and reads its `.id` (lines 14, 21, 27). The model folds all of these values into `Garbled`, which fails at the read.
- The launch's other fields are dropped from `Launch`: the image, the mission (whose name the card prefers over `name`), the rocket configuration and the provider (`components/LaunchCard.tsx:61-67, 73, 99, 102`). The store copies them unread, and no proof depends on them.
- Races between concurrent `addFavorite` and `removeFavorite` calls are left out. The source has no locking, and each model operation is one atomic transition.
- The clock read, date-string parsing, an invalid date's NaN, the one-minute refresh timer and all rendering in the launch card are left out. These are clock, locale and UI concerns, so `getCountdown` takes the integer difference directly.
- Double-precision arithmetic in `getCountdown` is not modelled. The integer model agrees with it while the difference is below 2^26 days, as explained above; beyond that the model does not promise the source's rounding.
- The `'22'` alpha suffix that callers append to the status colour is left out. It is presentation.
- The detail screen's own copy of the status colour function (`app/details/[id].tsx:19-30`) is not modelled separately. It has the same mapping, so `StatusColor` describes it too.
- Screens, navigation, theming, search debouncing and the fetch loading, error and retry orchestration are left out. They are UI code with no logic in the modelled files.

=== FILE: api.dfy ===
/**
 The launch record served by the remote launch API, reduced to its `id`
 and three of the fields the card displays. The store keys every record
 by `id` and copies the rest verbatim without inspecting it. The status
 abbreviation is what `LaunchCard.StatusColor` is applied to; the
 scheduled time reaches `LaunchCard.GetCountdown` only after date parsing
 and the clock read, which are not modelled.
 */
module Api {

  /** Three of the fields the card displays: name, status abbreviation and scheduled time. */
  datatype LaunchDetails = LaunchDetails(name: string, statusAbbrev: string, net: string)

  /** A launch snapshot; `id` is the key for every membership and de-duplication test. */
  datatype Launch = Launch(id: string, details: LaunchDetails)
}

=== FILE: decimal.dfy ===
/**
 Decimal numerals for non-negative integers: the text a template literal
 produces for a whole number, and the parser that reads it back.
 */
module Decimal {
  import opened Wrappers

  predicate IsDigit(c: char) {
    '0' <= c <= '9'
  }

  function DigitValue(c: char): nat
    requires IsDigit(c)
  {
    c as int - '0' as int
  }

  function DigitChar(d: nat): (c: char)
    requires d < 10
    ensures IsDigit(c) && DigitValue(c) == d
  {
    (d + '0' as int) as char
  }

  predicate AllDigits(s: string) {
    forall i :: 0 <= i < |s| ==> IsDigit(s[i])
  }

  /** A canonical numeral: non-empty, digits only, and no leading zero unless it is "0". */
  predicate Canonical(s: string) {
    |s| > 0 && AllDigits(s) && (|s| > 1 ==> s[0] != '0')
  }

  /** The value a string of digits denotes, most significant digit first. */
  function Value(s: string): nat
    requires AllDigits(s)
  {
    if |s| == 0 then 0 else Value(s[..|s| - 1]) * 10 + DigitValue(s[|s| - 1])
  }

  /** The decimal text of `n`, as `${n}` renders a non-negative integer. */
  function NatStr(n: nat): (s: string)
    ensures Canonical(s)
    ensures n > 0 ==> s[0] != '0'
  {
    if n < 10 then [DigitChar(n)] else NatStr(n / 10) + [DigitChar(n % 10)]
  }

  /** Reading the text of `n` gives `n` back. */
  lemma {:induction false} ValueOfNatStr(n: nat)
    ensures Value(NatStr(n)) == n
  {
    if n >= 10 {
      var s := NatStr(n);
      assert s[..|s| - 1] == NatStr(n / 10);
      ValueOfNatStr(n / 10);
    }
  }

  lemma {:induction false} ValuePositive(s: string)
    requires AllDigits(s) && |s| > 0 && s[0] != '0'
    ensures Value(s) >= 1
  {
    if |s| > 1 {
      var init := s[..|s| - 1];
      assert init[0] == s[0];
      ValuePositive(init);
    }
  }

  /** Every canonical numeral is the text of the value it denotes. */
  lemma {:induction false} NatStrOfValue(s: string)
    requires Canonical(s)
    ensures NatStr(Value(s)) == s
  {
    if |s| == 1 {
      assert DigitChar(DigitValue(s[0])) == s[0];
    } else {
      var init := s[..|s| - 1];
      assert init[0] == s[0];
      ValuePositive(init);
      NatStrOfValue(init);
      var v := Value(s);
      assert v / 10 == Value(init) && v % 10 == DigitValue(s[|s| - 1]);
      assert DigitChar(DigitValue(s[|s| - 1])) == s[|s| - 1];
      assert s == init + [s[|s| - 1]];
    }
  }

  /** The length of the longest prefix of `s` made of digits. */
  function DigitRun(s: string): (k: nat)
    ensures k <= |s|
    ensures forall i :: 0 <= i < k ==> IsDigit(s[i])
    ensures k < |s| ==> !IsDigit(s[k])
  {
    if |s| == 0 || !IsDigit(s[0]) then 0 else 1 + DigitRun(s[1..])
  }

  /**
   Reads a canonical numeral off the front of `s` and returns its value with
   the text that follows it; `None` when `s` does not start with a digit or
   the numeral has a leading zero.
   */
  function ParseNat(s: string): Option<(nat, string)> {
    var k := DigitRun(s);
    if k == 0 || (k > 1 && s[0] == '0') then None else Some((Value(s[..k]), s[k..]))
  }

  /** Parsing the text of `n` followed by a non-digit gives `n` and exactly that rest. */
  lemma ParseNatOfNatStr(n: nat, rest: string)
    requires rest == [] || !IsDigit(rest[0])
    ensures ParseNat(NatStr(n) + rest) == Some((n, rest))
  {
    var t := NatStr(n);
    var s := t + rest;
    var k := DigitRun(s);
    assert forall i :: 0 <= i < |t| ==> s[i] == t[i];
    assert |t| < |s| ==> s[|t|] == rest[0];
    assert k == |t|;
    assert s[..k] == t && s[k..] == rest;
    ValueOfNatStr(n);
  }

  /** Whatever `ParseNat` accepts is the text of the value it returns, followed by a non-digit. */
  lemma ParseNatSound(s: string, n: nat, rest: string)
    requires ParseNat(s) == Some((n, rest))
    ensures s == NatStr(n) + rest
    ensures rest == [] || !IsDigit(rest[0])
  {
    var k := DigitRun(s);
    NatStrOfValue(s[..k]);
    assert s == s[..k] + s[k..];
  }
}

=== FILE: launchcard.dfy ===
/**
 The two pieces of logic in the launch card: the colour of a status badge
 and the countdown label. The label is a function of `diff`, the launch
 time minus the current time in whole milliseconds; reading the clock and
 parsing the launch's date string happen before it and are not modelled.
 */
module LaunchCard {
  import opened Wrappers
  import opened Decimal

  const Green: string := "#22C55E"
  const Amber: string := "#F59E0B"
  const Slate: string := "#94A3B8"

  /** A colour literal of the form `#RRGGBB`. */
  predicate IsHexColor(c: string) {
    |c| == 7 && c[0] == '#' &&
    forall i :: 1 <= i < 7 ==> '0' <= c[i] <= '9' || 'A' <= c[i] <= 'F'
  }

  /** `getStatusColor`: green for go/success, amber for to-be-decided/confirmed, slate otherwise. */
  function StatusColor(abbrev: string): (c: string)
    ensures IsHexColor(c)
    ensures c == Green <==> abbrev == "Go" || abbrev == "Success"
    ensures c == Amber <==> abbrev == "TBD" || abbrev == "TBC"
    ensures c == Slate <==> abbrev != "Go" && abbrev != "Success" && abbrev != "TBD" && abbrev != "TBC"
  {
    match abbrev
    case "Go" => Green
    case "Success" => Green
    case "TBD" => Amber
    case "TBC" => Amber
    case _ => Slate
  }

  // ---------------------------------------------------------------------
  // Countdown arithmetic

  const MsPerMinute: nat := 1000 * 60
  const MsPerHour: nat := 1000 * 60 * 60
  const MsPerDay: nat := 1000 * 60 * 60 * 24

  /** Whole days, hours and minutes left before a launch. */
  datatype Breakdown = Breakdown(days: nat, hours: nat, minutes: nat)

  /** The milliseconds a breakdown accounts for. */
  function Total(b: Breakdown): nat {
    b.days * MsPerDay + b.hours * MsPerHour + b.minutes * MsPerMinute
  }

  /** A breakdown whose hours and minutes are in range for a clock face. */
  predicate InRange(b: Breakdown) {
    b.hours < 24 && b.minutes < 60
  }

  /**
   Splits a positive difference with floor division and remainder, the way
   the card does: whole days, the hours of the leftover day, the minutes of
   the leftover hour. The seconds are dropped, so the breakdown accounts for
   the difference to within one minute.
   */
  function Split(diff: int): (b: Breakdown)
    requires diff > 0
    ensures InRange(b)
    ensures Total(b) <= diff < Total(b) + MsPerMinute
  {
    var days := diff / MsPerDay;
    var hours := (diff % MsPerDay) / MsPerHour;
    var minutes := (diff % MsPerHour) / MsPerMinute;
    ModOfMod(diff, 24 * days + hours);
    Breakdown(days, hours, minutes)
  }

  /** The remainder by an hour is the remainder by an hour of the remainder by a day. */
  lemma ModOfMod(diff: int, q: int)
    requires diff > 0
    requires q == 24 * (diff / MsPerDay) + (diff % MsPerDay) / MsPerHour
    ensures diff % MsPerHour == (diff % MsPerDay) % MsPerHour
    ensures q * MsPerHour <= diff
  {
    var r := (diff % MsPerDay) % MsPerHour;
    assert diff == q * MsPerHour + r;
    DivModUnique(diff, MsPerHour, q);
  }

  /** Floor division and remainder are determined by the bracketing multiple. */
  lemma DivModUnique(x: int, d: int, q: int)
    requires d > 0
    requires q * d <= x < q * d + d
    ensures x / d == q && x % d == x - q * d
  {
    var q' := x / d;
    assert x == q' * d + x % d;
    if q' < q {
      MulLe(q' + 1, q, d);
    } else if q < q' {
      MulLe(q + 1, q', d);
    }
  }

  lemma MulLe(a: int, b: int, d: int)
    requires a <= b && d > 0
    ensures a * d <= b * d
  {
  }

  /**
   The card's breakdown is the only in-range breakdown that accounts for
   `diff` to within a minute.
   */
  lemma SplitUnique(diff: int, b: Breakdown)
    requires diff > 0
    requires InRange(b)
    requires Total(b) <= diff < Total(b) + MsPerMinute
    ensures Split(diff) == b
  {
    var rest := b.hours * MsPerHour + b.minutes * MsPerMinute;
    assert rest < MsPerDay;
    DivModUnique(diff, MsPerDay, b.days);
    var inDay := diff % MsPerDay;
    assert inDay == rest + (diff - Total(b));
    DivModUnique(inDay, MsPerHour, b.hours);
    var q := 24 * b.days + b.hours;
    ModOfMod(diff, q);
    var inHour := diff % MsPerHour;
    DivModUnique(inHour, MsPerMinute, b.minutes);
  }

  // ---------------------------------------------------------------------
  // The countdown label

  /** What a countdown label shows. */
  datatype Countdown = Launched | Remaining(left: Breakdown)

  /** One field of a label: a numeral and its unit text. */
  function Field(n: nat, unit: string): string {
    NatStr(n) + unit
  }

  /**
   The fields of a label: drops zero days, then zero hours, but always shows
   minutes. Nothing is lost by the dropping: the fields read back as the
   breakdown they were written for.
   */
  function RenderFields(b: Breakdown): (t: string)
    ensures ParseFields(t) == Some(b)
  {
    if b.days > 0 then
      ParseFieldsDays(b.days, b.hours, b.minutes);
      Field(b.days, "d ") + (Field(b.hours, "h ") + Field(b.minutes, "m"))
    else if b.hours > 0 then
      ParseFieldsHours(b.hours, b.minutes);
      Field(b.hours, "h ") + Field(b.minutes, "m")
    else
      ParseFieldsMinutes(b.minutes);
      Field(b.minutes, "m")
  }

  /** The label for time remaining. */
  function RenderRemaining(b: Breakdown): (s: string)
    ensures |s| > 2 && s[..2] == "T-"
  {
    "T-" + RenderFields(b)
  }

  /** `getCountdown`, given the difference in milliseconds between launch and now. */
  function GetCountdown(diff: int): (s: string)
    ensures s == "Launched" <==> diff <= 0
    ensures diff > 0 ==> |s| > 2 && s[..2] == "T-"
  {
    assert "Launched"[..2] == "La";
    if diff <= 0 then "Launched" else RenderRemaining(Split(diff))
  }

  /** What the label says: launched, or the breakdown of the time remaining. */
  function View(diff: int): Countdown {
    if diff <= 0 then Launched else Remaining(Split(diff))
  }

  /** Under a minute to go the label reads "T-0m". */
  lemma UnderAMinute(diff: int)
    requires 0 < diff < MsPerMinute
    ensures GetCountdown(diff) == "T-0m"
  {
    assert Split(diff) == Breakdown(0, 0, 0);
    assert NatStr(0) == "0";
  }

  // ---------------------------------------------------------------------
  // Reading a label back

  /**
   Reads a canonical numeral followed by `unit` off the front of `t`;
   returns the number and the text after the unit.
   */
  function ParseField(t: string, unit: string): Option<(nat, string)> {
    var p :- ParseNat(t);
    var (n, rest) := p;
    if unit <= rest then Some((n, rest[|unit|..])) else None
  }

  /** Reads the minutes field, which ends the label. */
  function ParseMinutes(t: string): Option<nat> {
    var p :- ParseField(t, "m");
    var (m, rest) := p;
    if rest == "" then Some(m) else None
  }

  /** Reads "{h}h {m}m". */
  function ParseHoursMinutes(t: string): Option<(nat, nat)> {
    var p :- ParseField(t, "h ");
    var (h, rest) := p;
    var m :- ParseMinutes(rest);
    Some((h, m))
  }

  /**
   Reads the fields after "T-" in the three shapes the card writes, and no
   other: a leading zero count of days or hours is never written.
   */
  function ParseFields(t: string): Option<Breakdown> {
    var p :- ParseNat(t);
    var (n, rest) := p;
    if rest == "m" then Some(Breakdown(0, 0, n))
    else if n > 0 && "h " <= rest then
      var m :- ParseMinutes(rest[2..]);
      Some(Breakdown(0, n, m))
    else if n > 0 && "d " <= rest then
      var hm :- ParseHoursMinutes(rest[2..]);
      Some(Breakdown(n, hm.0, hm.1))
    else None
  }

  /**
   The inverse of the label: `None` for any text the card never writes,
   including well-formed fields with 24 or more hours or 60 or more minutes.
   */
  function ParseCountdown(s: string): Option<Countdown> {
    if s == "Launched" then Some(Launched)
    else if !("T-" <= s) then None
    else
      var b :- ParseFields(s[2..]);
      if InRange(b) then Some(Remaining(b)) else None
  }

  /** A unit starts with a non-digit, so it ends the numeral before it. */
  predicate IsUnit(unit: string) {
    |unit| > 0 && !IsDigit(unit[0])
  }

  lemma ParseFieldOf(n: nat, unit: string, rest: string)
    requires IsUnit(unit)
    ensures ParseField(Field(n, unit) + rest, unit) == Some((n, rest))
  {
    assert Field(n, unit) + rest == NatStr(n) + (unit + rest);
    ParseNatOfNatStr(n, unit + rest);
    assert (unit + rest)[..|unit|] == unit;
    assert (unit + rest)[|unit|..] == rest;
  }

  lemma ParseFieldSound(t: string, unit: string, n: nat, rest: string)
    requires ParseField(t, unit) == Some((n, rest))
    ensures t == Field(n, unit) + rest
  {
    var p := ParseNat(t).value;
    ParseNatSound(t, p.0, p.1);
    assert p.1 == unit + rest;
  }

  lemma ParseMinutesOf(m: nat)
    ensures ParseMinutes(Field(m, "m")) == Some(m)
  {
    ParseFieldOf(m, "m", "");
    assert Field(m, "m") + "" == Field(m, "m");
  }

  lemma ParseMinutesSound(t: string, m: nat)
    requires ParseMinutes(t) == Some(m)
    ensures t == Field(m, "m")
  {
    ParseFieldSound(t, "m", m, "");
    assert Field(m, "m") + "" == Field(m, "m");
  }

  lemma ParseHoursMinutesOf(h: nat, m: nat)
    ensures ParseHoursMinutes(Field(h, "h ") + Field(m, "m")) == Some((h, m))
  {
    ParseFieldOf(h, "h ", Field(m, "m"));
    ParseMinutesOf(m);
  }

  lemma ParseHoursMinutesSound(t: string, h: nat, m: nat)
    requires ParseHoursMinutes(t) == Some((h, m))
    ensures t == Field(h, "h ") + Field(m, "m")
  {
    var p := ParseField(t, "h ").value;
    ParseFieldSound(t, "h ", p.0, p.1);
    ParseMinutesSound(p.1, m);
  }

  /** Splitting a field into its numeral and its unit-led rest. */
  lemma ParseNatOfField(n: nat, unit: string, rest: string)
    requires IsUnit(unit)
    ensures ParseNat(Field(n, unit) + rest) == Some((n, unit + rest))
    ensures unit <= unit + rest && (unit + rest)[|unit|..] == rest
  {
    assert Field(n, unit) + rest == NatStr(n) + (unit + rest);
    ParseNatOfNatStr(n, unit + rest);
    assert (unit + rest)[..|unit|] == unit;
  }

  lemma ParseFieldsDays(d: nat, h: nat, m: nat)
    requires d > 0
    ensures ParseFields(Field(d, "d ") + (Field(h, "h ") + Field(m, "m"))) == Some(Breakdown(d, h, m))
  {
    var tail := Field(h, "h ") + Field(m, "m");
    ParseNatOfField(d, "d ", tail);
    assert ("d " + tail)[0] == 'd';
    assert !("h " <= "d " + tail);
    ParseHoursMinutesOf(h, m);
  }

  lemma ParseFieldsHours(h: nat, m: nat)
    requires h > 0
    ensures ParseFields(Field(h, "h ") + Field(m, "m")) == Some(Breakdown(0, h, m))
  {
    var tail := Field(m, "m");
    ParseNatOfField(h, "h ", tail);
    assert ("h " + tail)[0] == 'h';
    ParseMinutesOf(m);
  }

  lemma ParseFieldsMinutes(m: nat)
    ensures ParseFields(Field(m, "m")) == Some(Breakdown(0, 0, m))
  {
    ParseNatOfField(m, "m", "");
    assert Field(m, "m") + "" == Field(m, "m");
  }

  /** A text led by "T-" reads as its fields. */
  lemma ParseCountdownOfFields(t: string, b: Breakdown)
    requires ParseFields(t) == Some(b) && InRange(b)
    ensures ParseCountdown("T-" + t) == Some(Remaining(b))
  {
    var s := "T-" + t;
    assert s[..2] == "T-" && s[2..] == t;
    assert s != "Launched" by {
      assert s[1] == '-' && "Launched"[1] == 'a';
    }
  }

  /** Reading back a label written for any in-range breakdown gives that breakdown. */
  lemma ParseRenderRemaining(b: Breakdown)
    requires InRange(b)
    ensures ParseCountdown(RenderRemaining(b)) == Some(Remaining(b))
  {
    ParseCountdownOfFields(RenderFields(b), b);
  }

  /** A text that starts with `unit` is `unit` followed by the rest. */
  lemma PrefixSplit(rest: string, unit: string)
    requires unit <= rest
    ensures rest == unit + rest[|unit|..]
  {
    assert rest[..|unit|] == unit;
    assert rest == rest[..|unit|] + rest[|unit|..];
  }

  /** A numeral followed by `unit` and `tail` is the field, then `tail`. */
  lemma FieldThen(t: string, n: nat, rest: string, unit: string, tail: string)
    requires t == NatStr(n) + rest && rest == unit + tail
    ensures t == Field(n, unit) + tail
  {
  }

  /** Every text `ParseFields` accepts is exactly the fields written for what it reads. */
  lemma ParseFieldsSound(t: string)
    ensures ParseFields(t).Some? ==> t == RenderFields(ParseFields(t).value)
  {
    if ParseFields(t).Some? {
      var b := ParseFields(t).value;
      var (n, rest) := ParseNat(t).value;
      ParseNatSound(t, n, rest);
      if rest == "m" {
        assert t == Field(n, "m");
      } else if n > 0 && "h " <= rest {
        var tail := rest[2..];
        PrefixSplit(rest, "h ");
        ParseMinutesSound(tail, b.minutes);
        FieldThen(t, n, rest, "h ", tail);
      } else {
        var tail := rest[2..];
        PrefixSplit(rest, "d ");
        ParseHoursMinutesSound(tail, b.hours, b.minutes);
        FieldThen(t, n, rest, "d ", tail);
      }
    }
  }

  /** Every text the parser accepts is exactly the label written for an in-range breakdown it reads. */
  lemma ParseSound(s: string)
    ensures ParseCountdown(s) == Some(Launched) ==> s == "Launched"
    ensures ParseCountdown(s).Some? && ParseCountdown(s).value.Remaining? ==>
      InRange(ParseCountdown(s).value.left) && s == RenderRemaining(ParseCountdown(s).value.left)
  {
    if s != "Launched" && ParseCountdown(s).Some? {
      var t := s[2..];
      assert s == "T-" + t;
      ParseFieldsSound(t);
    }
  }

  /** The label always reads back as what it shows: launched, or the card's breakdown. */
  lemma CountdownRoundTrip(diff: int)
    ensures ParseCountdown(GetCountdown(diff)) == Some(View(diff))
  {
    if diff > 0 {
      ParseRenderRemaining(Split(diff));
    }
  }

  /**
   A label showing time remaining pins the difference down to one minute:
   every positive difference that an in-range breakdown accounts for to
   within a minute gets that breakdown's label, and (by `ParseSound`) no
   other text reads back as that breakdown.
   */
  lemma LabelDeterminesMinute(b: Breakdown, diff: int)
    requires InRange(b)
    requires diff > 0 && Total(b) <= diff < Total(b) + MsPerMinute
    ensures GetCountdown(diff) == RenderRemaining(b)
  {
    SplitUnique(diff, b);
  }

  /** A difference the card shows as `c`: none left when launched, else just past the breakdown's total. */
  function Representative(c: Countdown): (diff: int)
    ensures c.Launched? <==> diff <= 0
  {
    match c
    case Launched => 0
    case Remaining(b) => Total(b) + 1
  }

  /**
   The parser accepts exactly the labels the card writes: a text reads back
   as something if and only if some difference produces it.
   */
  lemma ParseAcceptsExactlyLabels(s: string)
    ensures ParseCountdown(s).Some? <==> exists diff :: GetCountdown(diff) == s
  {
    if ParseCountdown(s).Some? {
      var c := ParseCountdown(s).value;
      ParseSound(s);
      if c.Remaining? {
        LabelDeterminesMinute(c.left, Representative(c));
      }
      assert GetCountdown(Representative(c)) == s;
    }
    if exists diff :: GetCountdown(diff) == s {
      var diff :| GetCountdown(diff) == s;
      CountdownRoundTrip(diff);
    }
  }
}

=== FILE: storage.dfy ===
/**
 The on-device favourites store. The key-value collaborator holds one blob
 under a fixed key; every operation reads the whole blob, decodes it as a
 list of launches and, for the two writers, replaces it with the encoding
 of the new list. Each operation is modelled as a pure transition from the
 blob before the call to a `Step`: what the call returns (or throws) and
 the blob after it.
 */
module Storage {
  import opened Wrappers
  import opened Api

  /** What the key-value collaborator holds under the favourites key. */
  datatype Blob =
    | Missing                     // never written: the read yields null
    | EmptyText                   // an empty string, which the falsy test also treats as absent
    | Encoded(list: seq<Launch>)  // the serialisation of a launch array
    | Garbled                     // text the decoder rejects

  /** The one error the model keeps: the decoder's parse error. */
  datatype StoreError = ParseError

  /** The result of one store call and the blob it leaves behind. */
  datatype Step<T> = Step(result: Result<T, StoreError>, after: Blob)

  /** The `some` over ids in `addFavorite` and `isFavorite`: scans from the front and stops at the first entry carrying `id`. */
  function HasId(favs: seq<Launch>, id: string): (found: bool)
    ensures found <==> exists i :: 0 <= i < |favs| && favs[i].id == id
  {
    |favs| > 0 && (favs[0].id == id || HasId(favs[1..], id))
  }

  /** No two entries share an id: the store's key invariant. */
  predicate DistinctIds(favs: seq<Launch>) {
    forall i, j :: 0 <= i < j < |favs| ==> favs[i].id != favs[j].id
  }

  /** A blob whose decoded list, if any, keeps the key invariant. */
  predicate WellFormed(b: Blob) {
    b.Encoded? ==> DistinctIds(b.list)
  }

  /** The `filter` on ids in `removeFavorite`: the entries of `favs` whose id differs from `id`, in their original order. */
  function Without(favs: seq<Launch>, id: string): (kept: seq<Launch>)
    ensures |kept| <= |favs|
    ensures forall i :: 0 <= i < |kept| ==> kept[i].id != id
  {
    if |favs| == 0 then []
    else
      assert favs == [favs[0]] + favs[1..];
      if favs[0].id == id then Without(favs[1..], id)
      else [favs[0]] + Without(favs[1..], id)
  }

  /** Decoding the blob: nothing stored reads as the empty list, a bad blob throws. */
  function Decode(b: Blob): (r: Result<seq<Launch>, StoreError>)
    ensures r.Failure? <==> b.Garbled?
    ensures b.Missing? || b.EmptyText? ==> r == Success([])
  {
    match b
    case Missing => Success([])
    case EmptyText => Success([])
    case Encoded(list) => Success(list)
    case Garbled => Failure(ParseError)
  }

  /** Writing a list back; the encoding of a list is never empty text. */
  function Encode(favs: seq<Launch>): (b: Blob)
    ensures Decode(b) == Success(favs)
  {
    Encoded(favs)
  }

  /** `getFavorites`: reads the stored list without writing. */
  function GetFavorites(b: Blob): (r: Step<seq<Launch>>)
    ensures r.after == b
    ensures r.result.Failure? <==> b.Garbled?
    ensures b.Missing? || b.EmptyText? ==> r.result == Success([])
    ensures b.Encoded? ==> r.result == Success(b.list)
  {
    Step(Decode(b), b)
  }

  /** `addFavorite`: appends `launch` unless an entry with its id is already stored. */
  function AddFavorite(b: Blob, launch: Launch): (r: Step<()>)
    ensures r.result.Failure? <==> b.Garbled?
    ensures b.Garbled? ==> r.after == b
    ensures !b.Garbled? ==> r.after == b || r.after == Encode(Decode(b).value + [launch])
  {
    match Decode(b)
    case Failure(e) => Step(Failure(e), b)
    case Success(favs) =>
      if HasId(favs, launch.id) then Step(Success(()), b)
      else Step(Success(()), Encode(favs + [launch]))
  }

  /** `removeFavorite`: writes back the list without the entries carrying `id`. */
  function RemoveFavorite(b: Blob, id: string): (r: Step<()>)
    ensures r.result.Failure? <==> b.Garbled?
    ensures b.Garbled? ==> r.after == b
    ensures !b.Garbled? ==> r.after == Encode(Without(Decode(b).value, id))
  {
    match Decode(b)
    case Failure(e) => Step(Failure(e), b)
    case Success(favs) => Step(Success(()), Encode(Without(favs, id)))
  }

  /** `isFavorite`: whether an entry with `id` is stored; reads without writing. */
  function IsFavorite(b: Blob, id: string): (r: Step<bool>)
    ensures r.after == b
    ensures r.result.Failure? <==> b.Garbled?
    ensures r.result == Success(true) <==> b.Encoded? && HasId(b.list, id)
  {
    match Decode(b)
    case Failure(e) => Step(Failure(e), b)
    case Success(favs) => Step(Success(HasId(favs, id)), b)
  }

  /** `isFavorite` answers what a membership test on `getFavorites`' list answers, and throws when it throws. */
  lemma IsFavoriteAgreesWithGetFavorites(b: Blob, id: string)
    ensures GetFavorites(b).result.Success? ==>
      IsFavorite(b, id).result == Success(HasId(GetFavorites(b).result.value, id))
    ensures GetFavorites(b).result.Failure? ==> IsFavorite(b, id).result == Failure(GetFavorites(b).result.error)
  {
  }

  /** `getFavorites` after a successful remove reads the filtered list. */
  lemma GetFavoritesAfterRemove(b: Blob, id: string)
    requires !b.Garbled?
    ensures GetFavorites(RemoveFavorite(b, id).after).result == Success(Without(Decode(b).value, id))
  {
  }

  // ---------------------------------------------------------------------
  // The filter behind removeFavorite

  /** An entry survives the filter exactly when it was there and its id differs. */
  lemma {:induction false} WithoutMembers(favs: seq<Launch>, id: string, x: Launch)
    ensures x in Without(favs, id) <==> x in favs && x.id != id
  {
    if |favs| > 0 {
      WithoutMembers(favs[1..], id, x);
      assert favs == [favs[0]] + favs[1..];
    }
  }

  /** After the filter no entry carries `id`. */
  lemma WithoutHasNoId(favs: seq<Launch>, id: string)
    ensures !HasId(Without(favs, id), id)
  {
    var w := Without(favs, id);
    forall i | 0 <= i < |w|
      ensures w[i].id != id
    {
      WithoutMembers(favs, id, w[i]);
    }
  }

  /** The filter distributes over concatenation, so relative order is kept. */
  lemma {:induction false} WithoutConcat(a: seq<Launch>, c: seq<Launch>, id: string)
    ensures Without(a + c, id) == Without(a, id) + Without(c, id)
  {
    if |a| == 0 {
      assert a + c == c;
    } else {
      assert (a + c)[1..] == a[1..] + c;
      WithoutConcat(a[1..], c, id);
    }
  }

  /** Filtering out an id nobody carries changes nothing. */
  lemma {:induction false} WithoutAbsent(favs: seq<Launch>, id: string)
    requires !HasId(favs, id)
    ensures Without(favs, id) == favs
  {
    if |favs| > 0 {
      assert !HasId(favs[1..], id) by {
        forall i | 0 <= i < |favs[1..]|
          ensures favs[1..][i].id != id
        {
          assert favs[1..][i] == favs[i + 1];
        }
      }
      WithoutAbsent(favs[1..], id);
      assert favs == [favs[0]] + favs[1..];
    }
  }

  /** The filter keeps the key invariant. */
  lemma {:induction false} WithoutDistinct(favs: seq<Launch>, id: string)
    requires DistinctIds(favs)
    ensures DistinctIds(Without(favs, id))
  {
    if |favs| > 0 {
      var rest := favs[1..];
      assert DistinctIds(rest) by {
        forall i, j | 0 <= i < j < |rest|
          ensures rest[i].id != rest[j].id
        {
          assert rest[i] == favs[i + 1] && rest[j] == favs[j + 1];
        }
      }
      WithoutDistinct(rest, id);
      if favs[0].id != id {
        var w := Without(rest, id);
        forall k | 0 <= k < |w|
          ensures w[k].id != favs[0].id
        {
          WithoutMembers(rest, id, w[k]);
          var m :| 0 <= m < |rest| && rest[m] == w[k];
          assert rest[m] == favs[m + 1];
        }
        assert Without(favs, id) == [favs[0]] + w;
      }
    }
  }

  // ---------------------------------------------------------------------
  // Properties of the store operations

  /** Adding the same launch twice leaves the store as adding it once. */
  lemma AddIdempotent(b: Blob, launch: Launch)
    ensures AddFavorite(AddFavorite(b, launch).after, launch) == AddFavorite(b, launch)
  {
    if !b.Garbled? {
      var favs := Decode(b).value;
      if !HasId(favs, launch.id) {
        assert (favs + [launch])[|favs|] == launch;
      }
    }
  }

  /** Adding a launch whose id is stored returns normally and writes nothing. */
  lemma AddPresentIsNoOp(b: Blob, launch: Launch)
    requires b.Encoded? && HasId(b.list, launch.id)
    ensures AddFavorite(b, launch) == Step(Success(()), b)
  {
  }

  /** Adding a fresh launch keeps every stored entry in place and puts it last. */
  lemma AddFreshAppends(b: Blob, launch: Launch)
    requires !b.Garbled?
    requires !(b.Encoded? && HasId(b.list, launch.id))
    ensures Decode(AddFavorite(b, launch).after) == Success(Decode(b).value + [launch])
  {
  }

  /** Once `addFavorite` returns, `isFavorite` for its id answers true. */
  lemma AddThenIsFavorite(b: Blob, launch: Launch)
    requires !b.Garbled?
    ensures IsFavorite(AddFavorite(b, launch).after, launch.id).result == Success(true)
  {
    var favs := Decode(b).value;
    if !HasId(favs, launch.id) {
      assert (favs + [launch])[|favs|] == launch;
    }
  }

  /** Once `removeFavorite` returns, `isFavorite` for that id answers false, whatever was stored. */
  lemma RemoveThenNotFavorite(b: Blob, id: string)
    requires !b.Garbled?
    ensures IsFavorite(RemoveFavorite(b, id).after, id).result == Success(false)
  {
    WithoutHasNoId(Decode(b).value, id);
  }

  /** Removing an id nobody carries leaves the stored contents as they were. */
  lemma RemoveAbsentKeepsContents(b: Blob, id: string)
    requires !b.Garbled?
    requires !(b.Encoded? && HasId(b.list, id))
    ensures Decode(RemoveFavorite(b, id).after) == Decode(b)
  {
    WithoutAbsent(Decode(b).value, id);
  }

  /** Removing twice leaves the store as removing once. */
  lemma RemoveIdempotent(b: Blob, id: string)
    ensures RemoveFavorite(RemoveFavorite(b, id).after, id) == RemoveFavorite(b, id)
  {
    if !b.Garbled? {
      var w := Without(Decode(b).value, id);
      WithoutHasNoId(Decode(b).value, id);
      WithoutAbsent(w, id);
    }
  }

  /** Removing a launch that was just added afresh restores the stored contents. */
  lemma RemoveUndoesFreshAdd(b: Blob, launch: Launch)
    requires !b.Garbled?
    requires !(b.Encoded? && HasId(b.list, launch.id))
    ensures Decode(RemoveFavorite(AddFavorite(b, launch).after, launch.id).after) == Decode(b)
  {
    var favs := Decode(b).value;
    WithoutConcat(favs, [launch], launch.id);
    WithoutAbsent(favs, launch.id);
    assert Without([launch], launch.id) == [];
    assert favs + [] == favs;
  }

  /** `addFavorite` keeps the key invariant. */
  lemma AddKeepsDistinct(b: Blob, launch: Launch)
    requires WellFormed(b)
    ensures WellFormed(AddFavorite(b, launch).after)
  {
    if !b.Garbled? {
      var favs := Decode(b).value;
      if !HasId(favs, launch.id) {
        var n := favs + [launch];
        forall i, j | 0 <= i < j < |n|
          ensures n[i].id != n[j].id
        {
          if j == |favs| {
            assert n[i] == favs[i];
          } else {
            assert n[i] == favs[i] && n[j] == favs[j];
          }
        }
      }
    }
  }

  /** `removeFavorite` keeps the key invariant. */
  lemma RemoveKeepsDistinct(b: Blob, id: string)
    requires WellFormed(b)
    ensures WellFormed(RemoveFavorite(b, id).after)
  {
    if !b.Garbled? {
      WithoutDistinct(Decode(b).value, id);
    }
  }
}

=== FILE: wrappers.dfy ===
/** `Option` (failure-compatible, so usable with `:-`) and `Result`, shared by the storage and countdown modules. */
module Wrappers {

  /** An optional value: `None` when there is nothing to report; usable with `:-`. */
  datatype Option<+T> = None | Some(value: T) {

    predicate IsFailure() {
      None?
    }

    function PropagateFailure<U>(): Option<U>
      requires None?
    {
      None
    }

    function Extract(): T
      requires Some?
    {
      value
    }
  }

  /** The outcome of an operation that may throw: `Failure` carries what was thrown. */
  datatype Result<+R, +E> = Success(value: R) | Failure(error: E)
}
